=== FILE: README.md ===
# xcat rendering pipeline and pager, in Dafny

xcat prints a source file with syntax highlighting. The highlighter (chroma)
produces text with embedded terminal colour codes. This project models what
xcat does with that text afterwards, and proves properties of the model.

- **Escape stripping** (`escape`, module `EscapeScanner`). A two-state scan over
  runes: ESC switches escape mode on; in escape mode every rune up to and
  including the next `m` is dropped; all other runes are copied.
- **Line scanning** (module `LineScan`). `bufio.Scanner` in line mode is the
  class `LineScanner`, specified by the function `Lines`: tokens end at `\n`,
  one trailing `\r` is dropped, and a final `\n` does not start an empty token.
  `Unlines(rows)` is what a loop writing `row + "\n"` per row produces.
- **Line rendering** (module `Render`):
  - `useLineNumbers` keeps lines `start..end` (`end == 0`: no end) behind a
    styled numeral;
  - `find` numbers every line and styles the numeral of matching lines;
  - `removeLineNumbers` drops each line's first word;
  - `usePipe` prints the buffer as is to a terminal, and stripped of gutters and
    colour codes otherwise.
- **Command-line pieces of `main`** (module `Cli`). Extension aliases, `~/`
  expansion, the `name@start:end` suffix (as a `Flags` class whose fields
  `main` assigns through `*startLine` and `*endLine`), the default end line, and the order in
  which the numbered, searched and piped outputs are produced.
- **The pager** (viewport.go, module `Pager`). A pure transition `Step` over the
  model's fields. A class `Model` whose `Update` assigns the fields as the Go
  code does and is proved to agree with `Step`. `View`, `applyLineNumbers`,
  `Show` and `max`. `Run` folds `Step` over a sequence of events up to the
  first quit key, for properties of whole sessions.

Go's library functions are modelled as far as xcat uses them. Module
`GoStrings` has `strings.Split`/`Contains`, `bytes.Count` and
`strconv.Itoa`/`Atoi`. xcat does not call `strings.Join`: `GoStrings.Join`
is there only to state `Split`'s round trip. The single-rune `strings.Replace(s, "~", home, 1)` of
`resolve` is `Cli.ReplaceFirst`.

Text is a sequence of Unicode code points. Printing is modelled by returning
the printed string. The test for a character device is a boolean parameter,
and the home directory is a parameter. Styles (`lipgloss.Style.Render`) are
function parameters whose output is not modelled.

Where the code and its description differ, the model follows the code:

- `useLineNumbers` uses its own fixed style, not the configurable one, so its
  style is a parameter distinct from the one given to `applyLineNumbers`.
- `find` numbers lines from 1 even inside a window, because it rescans the
  already windowed buffer.
- `removeLineNumbers` strips the first word of every line whether or not line
  numbers were added: see `Render.PipeDropsFirstWord`.
- `find` and `useLineNumbers` drain the buffer they read. After a search,
  `usePipe` therefore prints an empty buffer, a single newline
  (`Cli.Output`). In that case the search output itself is printed with its
  colour codes, even into a pipe.

## Model

| member | source | states |
|---|---|---|
| GoStrings.IndexOf | main.go:284 | the first occurrence of a rune, or the length when there is none |
| GoStrings.Count | main.go:164 | `bytes.Count`: bounded by the length, zero exactly when the rune is absent |
| GoStrings.Split | main.go:109-111 | at least one field; more than one exactly when the separator occurs; no field holds the separator; joining the fields with it gives the input back |
| GoStrings.SplitAtFirst | main.go:109-111 | splitting at a first separator yields the text before it, then the fields of the rest |
| GoStrings.Utoa | main.go:220 | the digits of a natural number, without leading zeros |
| GoStrings.Itoa | main.go:220 | the decimal numeral of `n`: digits whose value is `n` for `n >= 0`; a minus sign then digits whose value is `-n` otherwise |
| GoStrings.Atoi | main.go:113-116 | `strconv.Atoi` with its error ignored: a digit run, optionally behind `+` or `-`, gives its decimal value (negated after `-`) saturated to the 64-bit range; anything else gives 0 |
| GoStrings.AtoiLeadingZero | main.go:113-116 | leading zeros do not change the value read (`007` reads as `7`) |
| GoStrings.AtoiSignedLeadingZero | main.go:113-116 | nor do zeros after a sign (`-007` reads as `-7`) |
| GoStrings.AtoiPlus | main.go:113-116 | a `+` before unsigned text changes nothing (`+5` reads as `5`) |
| GoStrings.AtoiOfItoa | main.go:113-116 | `Atoi` reads back every 64-bit integer `Itoa` writes |
| GoStrings.CountAppend | main.go:164 | the newline count of a concatenation is the sum of the counts |
| LineScan.DropCR | main.go:281-283 | a token loses one trailing carriage return, and changes exactly when it ends in one |
| LineScan.Lines | main.go:232-235 | the scanned tokens hold no newline |
| LineScan.LineScanner.constructor | main.go:232 | a new scanner has all its input left and no token |
| LineScan.LineScanner.Scan | main.go:235 | true exactly while input remains; the token is the next line of `Lines`, and the rest holds the lines after it |
| LineScan.ScanAdvance | main.go:235 | a scan loop that has consumed `i` lines reads line `i` next, or stops after the last line |
| LineScan.LinesOfLastLine | main.go:232-235 | a final line with no newline after it is one token, which also loses one trailing carriage return |
| LineScan.LinesOfUnlines | main.go:279-289 | scanning rows written one per line gives the rows back, minus one trailing carriage return each |
| LineScan.UnlinesOfLines | main.go:235-243 | writing the scanned lines of carriage-return-free text gives it back, with a final newline added when it lacked one |
| LineScan.LinesCount | main.go:163-165 | one token per newline, plus one for a last line without a newline |
| LineScan.UnlinesSnoc | main.go:240 | writing one more row appends that row and a newline |
| LineScan.UnlinesAppend | main.go:240 | writing two runs of rows writes the first, then the second |
| EscapeScanner.Escape | main.go:291-312 | the loop computes `Strip` of its input, and its result holds no ESC |
| EscapeScanner.NoEscInStrip | main.go:294-300 | an ESC is consumed and never written, from either mode |
| EscapeScanner.StripWithoutEsc | main.go:291-312 | text with no ESC is returned unchanged |
| EscapeScanner.StripIdempotent | main.go:291-312 | escaping twice is escaping once |
| EscapeScanner.StripShrinks | main.go:291-312 | the output is never longer than the input |
| EscapeScanner.StripAppend | main.go:291-312 | the scan of a concatenation continues the scan of its first part in the mode that part ends in |
| EscapeScanner.EscapeModeWithoutM | main.go:301-306 | in escape mode, text without `m` is dropped and the mode stays on |
| EscapeScanner.UnterminatedEscapeSwallowsRest | main.go:301-306 | after an ESC with no later `m`, the rest of the input is dropped and the result is what the text before the ESC strips to |
| EscapeScanner.ColorCodeResetsScan | main.go:294-306 | a colour code `ESC p m` ends any escape in progress: the visible text is that of the text before it, then that of the text after it scanned outside escape mode |
| EscapeScanner.ColorCodeInvisible | main.go:294-306 | inserting a colour code `ESC p m` where the scan is outside escape mode leaves the visible text unchanged |
| EscapeScanner.ColorCodeAfterOpenEscape | main.go:294-306 | after an unterminated ESC a colour code is not invisible: `ESC x` shows nothing, while `ESC`, a code, then `x` shows `x` |
| Render.WindowBounds | main.go:236 | a line number passes the guard exactly when it lies between the window's first and last line |
| Render.WindowContiguous | main.go:234-243 | the kept rows are exactly the lines of one contiguous slice, in order, each behind the gutter of its own number |
| Render.WindowRowsStep | main.go:235-242 | one more scanned line adds its gutter row exactly when its number passes the guard |
| Render.WindowLinesGrow | main.go:236 | when the last line passes the guard, the kept slice grows by that line |
| Render.WindowStays | main.go:236 | when the last line fails the guard, neither the rows nor the kept slice change |
| Render.WindowEmpty | main.go:234-244 | a start past the last line, or an end before the start, gives no rows |
| Render.WindowEndBeyond | main.go:236 | an end at or past the last line keeps the same rows as no end |
| Render.WindowWhole | viewport.go:126-133 | the window from line 1 with no end numbers every line |
| Render.NumberRowsSnoc | viewport.go:129-130 | numbering one more line appends its gutter row |
| Render.UseLineNumbers | main.go:230-245 | the output is the window's gutter rows, one per line, each followed by a newline; the error is always nil |
| Render.Find | main.go:212-228 | one row per scanned line, numbered 1, 2, … without gaps, line unchanged, numeral styled exactly when the escape-stripped line contains the query |
| Render.FindRowsStep | main.go:215-226 | one more scanned line appends its find row |
| Render.RemoveLineNumbers | main.go:279-289 | each scanned line is written as the text after its first space, plus a newline; every line must hold a space, since the code indexes past `SplitN`'s result otherwise |
| Render.LineWithoutSpaceRejected | main.go:284-285 | text with an empty line, such as `a`, an empty line, `b`, has a scanned line without a space, so it falls outside `RemoveLineNumbers`' precondition |
| Render.StripGuttersStep | main.go:282-285 | one more scanned line appends the text after its first space |
| Render.UsePipe | main.go:251-264 | a terminal gets the buffer and a newline; a pipe gets the buffer without gutters and colour codes, and no ESC |
| Render.AfterFirstWord | main.go:284-285 | the text after the first space of `w + " " + rest` is `rest` when `w` has no space |
| Render.GutterRowRescanned | main.go:282-285 | a gutter row, scanned again, still holds a space, and behind its first space is the line minus a final carriage return |
| Render.GutterRoundTrip | main.go:251-264 | removing the gutters from `useLineNumbers` output gives back the windowed lines, when rendered numerals hold no space or newline |
| Render.StripNumberedRows | main.go:282-285 | numbered rows hold no newline, and their gutters strip back to the lines |
| Render.PipedNumberedOutput | main.go:251-264 | piped numbered output is the windowed lines with their colour codes stripped, each with its newline, for any style whose rendered numerals hold no space or newline |
| Render.PlainNumeralsAdmitted | main.go:220 | uncoloured numerals hold no space or newline, so the plain style meets the round-trip lemmas' condition |
| Render.PlainPipedNumberedOutput | main.go:251-264 | piped numbered output in the uncoloured style is the windowed lines, colour codes stripped, each with its newline |
| Render.PipeDropsFirstWord | main.go:279-289 | the pipe path drops the first word of a line that never had a gutter |
| Cli.ResolveFileType | main.go:54-65 | the result is never one of the aliases `.wsb`, `.tsx`, `.jsx`; the extension is kept exactly when it is not one of them; an alias is replaced by its lexer name (`.xml`, `.ts`, `.js` in order) |
| Cli.ResolveFileTypeIdempotent | main.go:54-65 | a resolved extension is never one of the three aliases, so resolving again changes nothing |
| Cli.ReplaceFirst | main.go:274 | without the rune the text is unchanged; with it, its first occurrence, and only that one, is replaced by the replacement text |
| Cli.Resolve | main.go:271-277 | a path starting with `~/` gets the home directory in place of its tilde; any other path is kept |
| Cli.ResolveIdempotent | main.go:271-277 | resolving twice is resolving once, for a home directory that does not start with a tilde |
| Cli.RangeSuffix | main.go:108-118 | without `@` nothing changes; with one, the name is the `@`-free text before the first `@`, and the start is in the 64-bit range |
| Cli.ItoaHasNo | main.go:109-111 | a numeral holds nothing but digits and a minus sign, so no `@` or `:` |
| Cli.RangeSuffixFields | main.go:108-114 | `name@x:y`, for any `@`-free `x` and `y` and `:`-free `x`, opens `name` with start `Atoi(x)` and end `Atoi` of `y` up to its first `:` |
| Cli.RangeSuffixField | main.go:108-116 | `name@x`, for any `x` without `@` or `:`, opens `name` from line `Atoi(x)` and keeps the end line |
| Cli.RangeSuffixStartEnd | main.go:112-114 | `name@a:b` opens `name` with lines `a` to `b` |
| Cli.RangeSuffixStartOnly | main.go:115-116 | `name@a` opens `name` from line `a` and keeps the end line |
| Cli.RangeSuffixUnparsable | main.go:115-116 | a single field that is not a number, signed or unsigned, sets the start line to 0 |
| Cli.RangeSuffixIgnoresSecondAt | main.go:109-111 | text after a second `@` is ignored |
| Cli.ResolveEnd | main.go:163-165 | a non-zero end is kept; an end of 0 becomes at least 1 and at least the file's line count |
| Cli.ResolvedEndKeepsWindow | main.go:163-165 | the resolved end keeps every line that no end would, for text with no more lines than the file |
| Cli.Flags.constructor | main.go:35-36 | the start line defaults to 1 and the end line to 0 |
| Cli.Flags.ApplyRangeSuffix | main.go:108-118 | the name returned and the flags assigned are those of `RangeSuffix` |
| Cli.Flags.ResolveEndLine | main.go:163-165 | only the end line changes, to `ResolveEnd` of its old value |
| Cli.Output | main.go:186-200 | with a search, the search output then one newline; without, a terminal gets the (numbered) buffer and a newline, a pipe gets it without gutters and colour codes, and no ESC |
| Pager.Height | viewport.go:58-59 | a rendered block is at least one line tall |
| Pager.Step | viewport.go:45-86 | quit keys return the model unchanged with the quit command; the first window size sets width, height (minus header and footer), position below the header, the styled content and `ready`; a later one changes only width and height; `ready` never falls; any other event changes only the scroll offset |
| Pager.Model.constructor | viewport.go:120 | a new model is not ready and has a zero viewport |
| Pager.Model.Update | viewport.go:45-86 | the fields assigned and the command returned are those of `Step` |
| Pager.View | viewport.go:88-93 | a two-line placeholder until ready; then a frame with the header on top, exactly the viewport body between the newlines, and the footer at the bottom, as tall as header, body and footer together |
| Pager.Frame | viewport.go:92 | joining header, body and footer with newlines puts the header on top, the body between the newlines and the footer at the bottom, and adds their heights |
| Pager.ResizedFrameFillsWindow | viewport.go:57-74 | after a window size, a body filling the viewport makes the frame exactly as tall as the window |
| Pager.Max | viewport.go:105-110 | at least each argument, and equal to one of them |
| Pager.RunKeepsReady | viewport.go:45-86 | over any events, `ready` never returns to false, and content and title never change |
| Pager.RunReadyAfterResize | viewport.go:62-70 | a window size that no quit key precedes leaves the pager ready |
| Pager.RunStopsAtQuit | viewport.go:53-55 | a quit key ends the session: later events are not processed |
| Pager.RunConsistent | viewport.go:62-74 | a ready pager always shows its own styled content below the header; later resizes never reload it |
| Pager.ApplyLineNumbers | viewport.go:126-133 | every scanned line behind the gutter of its number, counting 1, 2, … without gaps: the window from line 1 with no end |
| Pager.Show | viewport.go:116-124 | the model handed to the program holds the content, numbered when asked, with the title, not ready |

## Left out

- GoStrings.Atoi: a digit run that overflows 64 bits and is followed by a non-digit gives 0 here. Go's `strconv` stops at the overflow and saturates.
- Cli.Output: a pipe without `-n` or `-f` still has `removeLineNumbers` index the second space-separated field of every line. The source panics at main.go:285 on any line without a space, an empty line included (`Render.LineWithoutSpaceRejected`). The model covers only the inputs on which it does not panic, through the precondition that every line holds a space. The same precondition stands on `Render.RemoveLineNumbers` and `Render.UsePipe`.
- EscapeScanner.Escape: text is a sequence of code points. Decoding invalid UTF-8 into U+FFFD is not modelled.
- LineScan.LineScanner.Scan: the 64 KiB token limit and the scanner's error path are not modelled.
- Pager.Step: the bubbles viewport's own `Update` is assumed to change only the scroll offset. The new offset is an opaque function of the viewport and the event. Its clamping, `Sync` and high-performance commands are not modelled. Its command is the placeholder `ViewportCmd`.
- Pager.View: the viewport's rendered body, the header and footer views, and the content style are opaque parameters. Only `lipgloss.Height` (newlines plus one) is modelled.
- `Init`, which returns no command, and `tea.NewProgram(...).Run`'s event loop beyond folding `Step` over a sequence of events.
- Styles: lipgloss rendering, colours, borders, padding and `JoinHorizontal`. A style is a function from numeral to text with no further properties.
- The rest of `main`: flag parsing, config loading, `os.Stat`/`Open`/`ReadAll`, the size limit, the disallowed-extension check, and the chroma lexer, style and formatter calls. The file name composed for the lexer at main.go:139 is left out too. These are I/O and library calls whose code is not modelled.
- help.go and config.go are not part of this model: a key-binding help screen and JSON config I/O.
- Terminal side effects: `clearScreen`, `printHelp`, `Quick` and `writeString`. Printing is modelled as the returned string.

=== FILE: cli.dfy ===
/**
 * The small pieces of xcat's `main` that decide what is shown: extension
 * aliases for the lexer, `~/` expansion, the `name@start:end` range suffix,
 * the default end line, and the order in which the numbered, searched and
 * piped renderings are produced.
 */
module Cli {
  import opened GoStrings
  import opened LineScan
  import opened EscapeScanner
  import opened Render

  /**
   * `resolveFileType`: the extensions the lexer does not know are replaced by
   * ones it does; every other extension is kept.
   */
  function ResolveFileType(t: seq<char>): (r: seq<char>)
    ensures r != ".wsb" && r != ".tsx" && r != ".jsx"
    ensures (r == t) <==> (t != ".wsb" && t != ".tsx" && t != ".jsx")
    ensures r != t ==> (t, r) in {(".wsb", ".xml"), (".tsx", ".ts"), (".jsx", ".js")}
  {
    match t
    case ".wsb" => ".xml"
    case ".tsx" => ".ts"
    case ".jsx" => ".js"
    case _ => t
  }

  /** An extension that has been resolved once is resolved already. */
  lemma ResolveFileTypeIdempotent(t: seq<char>)
    ensures ResolveFileType(ResolveFileType(t)) == ResolveFileType(t)
    ensures ResolveFileType(t) != ".wsb" && ResolveFileType(t) != ".tsx" && ResolveFileType(t) != ".jsx"
  {
    if t == ".wsb" {
      assert ".xml" != ".wsb" && ".xml" != ".tsx" && ".xml" != ".jsx";
    } else if t == ".tsx" {
      assert ".ts" != ".wsb" && ".ts" != ".tsx" && ".ts" != ".jsx";
    } else if t == ".jsx" {
      assert ".js" != ".wsb" && ".js" != ".tsx" && ".js" != ".jsx";
    }
  }

  /** `strings.Replace(s, string(c), r, 1)`: the first `c`, if any, replaced by `r`. */
  function ReplaceFirst(s: seq<char>, c: char, r: seq<char>): (t: seq<char>)
    ensures c !in s ==> t == s
    ensures c in s ==> exists n :: 0 <= n < |s| && s[n] == c && c !in s[..n] && t == s[..n] + r + s[n + 1..]
  {
    var n := IndexOf(s, c);
    if n == |s| then s
    else
      assert c !in s[..n];
      s[..n] + r + s[n + 1..]
  }

  /**
   * `resolve`: a path starting with `~/` has its tilde replaced by the home
   * directory; any other path is kept.
   */
  function Resolve(filename: seq<char>, home: seq<char>): (r: seq<char>)
    ensures "~/" <= filename ==> r == home + filename[1..]
    ensures !("~/" <= filename) ==> r == filename
  {
    if "~/" <= filename then ReplaceFirst(filename, '~', home) else filename
  }

  /** Resolving twice is resolving once, when the home directory does not itself start with a tilde. */
  lemma ResolveIdempotent(filename: seq<char>, home: seq<char>)
    requires home == [] || home[0] != '~'
    ensures Resolve(Resolve(filename, home), home) == Resolve(filename, home)
  {
    var r := Resolve(filename, home);
    if "~/" <= filename {
      if home == [] {
        assert r == filename[1..] && r[0] == '/';
      } else {
        assert r[0] == home[0];
      }
    }
  }

  /** The file to open and the line window, as the command line sets them. */
  datatype Target = Target(name: seq<char>, start: int, end: int)

  /**
   * The `@` suffix of a file name. Without `@`, nothing changes. With one,
   * the name is the text before the first `@`, and the text after it (up to
   * any second `@`) is split at `:`: two or more fields set the start and the
   * end line, a single field sets only the start; a field that is not a
   * number gives 0.
   */
  function RangeSuffix(filename: seq<char>, start: int, end: int): (t: Target)
    ensures '@' !in filename ==> t == Target(filename, start, end)
    ensures '@' in filename ==> '@' !in t.name && t.name + "@" <= filename
    ensures '@' in filename ==> MinInt64 <= t.start <= MaxInt64
  {
    if '@' in filename then
      var parts := Split(filename, '@');
      assert filename == parts[0] + "@" + Join(parts[1..], '@');
      var lines := Split(parts[1], ':');
      if |lines| > 1 then Target(parts[0], Atoi(lines[0]), Atoi(lines[1]))
      else Target(parts[0], Atoi(lines[0]), end)
    else Target(filename, start, end)
  }

  /** A decimal numeral holds digits and perhaps a minus sign, so no separator. */
  lemma ItoaHasNo(n: int, c: char)
    requires !IsDigit(c) && c != '-'
    ensures c !in Itoa(n)
  {
    var s := Itoa(n);
    forall k | 0 <= k < |s|
      ensures s[k] != c
    {
    }
  }

  /**
   * `name@x:y` opens `name` showing lines `Atoi(x)` to `Atoi` of the text of
   * `y` before any further `:`; `x` and `y` are any text without `@`.
   */
  lemma RangeSuffixFields(name: seq<char>, x: seq<char>, y: seq<char>, start: int, end: int)
    requires '@' !in name && '@' !in x && '@' !in y && ':' !in x
    ensures RangeSuffix(name + "@" + x + ":" + y, start, end) == Target(name, Atoi(x), Atoi(Split(y, ':')[0]))
  {
    RangeSuffixTwoFields(name, x, y, start, end);
    RegroupRange(name, x, y);
  }

  /** The file name `name@x:y` regrouped around its `@`. */
  lemma RegroupRange(name: seq<char>, x: seq<char>, y: seq<char>)
    ensures name + "@" + x + ":" + y == name + ['@'] + (x + [':'] + y)
  {
  }

  /** `RangeSuffixFields` with the file name grouped as name, `@`, range. */
  lemma RangeSuffixTwoFields(name: seq<char>, x: seq<char>, y: seq<char>, start: int, end: int)
    requires '@' !in name && '@' !in x && '@' !in y && ':' !in x
    ensures RangeSuffix(name + ['@'] + (x + [':'] + y), start, end) == Target(name, Atoi(x), Atoi(Split(y, ':')[0]))
  {
    var range := x + [':'] + y;
    AtSplit(name, range);
    ColonSplit(x, y);
    RangeSuffixOfParts(name + ['@'] + range, name, range, start, end);
  }

  /** A `:`-free field, a `:` and more text split at `:` into that field first and the first field of the rest second. */
  lemma ColonSplit(x: seq<char>, y: seq<char>)
    requires ':' !in x
    ensures var lines := Split(x + [':'] + y, ':'); |lines| > 1 && lines[0] == x && lines[1] == Split(y, ':')[0]
  {
    SplitAtFirst(x, ':', y);
  }

  /** `name@x` with no `:` opens `name` from line `Atoi(x)`, keeping the end line it had. */
  lemma RangeSuffixField(name: seq<char>, x: seq<char>, start: int, end: int)
    requires '@' !in name && '@' !in x && ':' !in x
    ensures RangeSuffix(name + "@" + x, start, end) == Target(name, Atoi(x), end)
  {
    assert name + "@" + x == name + ['@'] + x;
    AtSplit(name, x);
    SplitNone(x, ':');
    RangeSuffixOfParts(name + ['@'] + x, name, x, start, end);
  }

  /** A name, one `@` and an `@`-free range split at `@` into the name and the range. */
  lemma AtSplit(name: seq<char>, range: seq<char>)
    requires '@' !in name && '@' !in range
    ensures '@' in name + ['@'] + range
    ensures Split(name + ['@'] + range, '@') == [name, range]
  {
    assert (name + ['@'] + range)[|name|] == '@';
    SplitAtFirst(name, '@', range);
    SplitNone(range, '@');
  }

  /** The `@` suffix read off the first two `@`-separated fields of a file name. */
  lemma RangeSuffixOfParts(filename: seq<char>, name: seq<char>, range: seq<char>, start: int, end: int)
    requires '@' in filename && Split(filename, '@') == [name, range]
    ensures var lines := Split(range, ':');
      RangeSuffix(filename, start, end) ==
        if |lines| > 1 then Target(name, Atoi(lines[0]), Atoi(lines[1])) else Target(name, Atoi(lines[0]), end)
  {
  }

  /** `name@a:b` opens `name` showing lines `a` to `b`. */
  lemma RangeSuffixStartEnd(name: seq<char>, a: int, b: int, start: int, end: int)
    requires '@' !in name
    requires MinInt64 <= a <= MaxInt64 && MinInt64 <= b <= MaxInt64
    ensures RangeSuffix(name + "@" + Itoa(a) + ":" + Itoa(b), start, end) == Target(name, a, b)
  {
    var sa, sb := Itoa(a), Itoa(b);
    ItoaHasNo(a, '@');
    ItoaHasNo(b, '@');
    ItoaHasNo(a, ':');
    ItoaHasNo(b, ':');
    RangeSuffixFields(name, sa, sb, start, end);
    assert Split(sb, ':') == [sb];
    AtoiOfItoa(a);
    AtoiOfItoa(b);
  }

  /** `name@a` opens `name` from line `a`, keeping the end line it had. */
  lemma RangeSuffixStartOnly(name: seq<char>, a: int, start: int, end: int)
    requires '@' !in name
    requires MinInt64 <= a <= MaxInt64
    ensures RangeSuffix(name + "@" + Itoa(a), start, end) == Target(name, a, end)
  {
    ItoaHasNo(a, '@');
    ItoaHasNo(a, ':');
    RangeSuffixField(name, Itoa(a), start, end);
    AtoiOfItoa(a);
  }

  /**
   * `name@x` with a single field that is not a number, signed or unsigned,
   * starts the window at line 0.
   */
  lemma RangeSuffixUnparsable(name: seq<char>, x: seq<char>, start: int, end: int)
    requires '@' !in name && '@' !in x && ':' !in x
    requires !(AllDigits(x) || (x != [] && (x[0] == '+' || x[0] == '-') && AllDigits(x[1..])))
    ensures RangeSuffix(name + "@" + x, start, end) == Target(name, 0, end)
  {
    RangeSuffixField(name, x, start, end);
  }

  /** Whatever follows a second `@` is ignored. */
  lemma RangeSuffixIgnoresSecondAt(name: seq<char>, x: seq<char>, y: seq<char>, start: int, end: int)
    requires '@' !in name && '@' !in x
    ensures RangeSuffix(name + "@" + x + "@" + y, start, end) == RangeSuffix(name + "@" + x, start, end)
  {
    var long, short := name + "@" + x + "@" + y, name + "@" + x;
    assert long == name + ['@'] + (x + ['@'] + y);
    assert short == name + ['@'] + x;
    assert long[|name|] == '@' && short[|name|] == '@';
    SplitAtFirst(name, '@', x + ['@'] + y);
    SplitAtFirst(x, '@', y);
    SplitAtFirst(name, '@', x);
  }

  /** The end line once the file is read: 0 means one past the file's newline count. */
  function ResolveEnd(end: int, contents: seq<char>): (r: int)
    ensures end != 0 ==> r == end
    ensures end == 0 ==> r >= 1 && r >= |Lines(contents)|
  {
    LinesCount(contents);
    if end == 0 then Count(contents, '\n') + 1 else end
  }

  /**
   * The resolved end line keeps every line a window with no end would keep,
   * for any text with no more lines than the file read.
   */
  lemma ResolvedEndKeepsWindow(text: seq<char>, contents: seq<char>, start: int, style: Label)
    requires |Lines(text)| <= |Lines(contents)|
    ensures WindowRows(Lines(text), start, ResolveEnd(0, contents), style) == WindowRows(Lines(text), start, 0, style)
  {
    WindowEndBeyond(Lines(text), start, ResolveEnd(0, contents), style);
  }

  /** The start and end line flags, which `main` overwrites in place. */
  class Flags {
    var startLine: int
    var endLine: int

    /** The flag defaults: from line 1, with no end. */
    constructor ()
      ensures startLine == 1 && endLine == 0
    {
      startLine := 1;
      endLine := 0;
    }

    /** The `@` parse of `main`, assigning through the flags; returns the name to open. */
    method ApplyRangeSuffix(filename: seq<char>) returns (name: seq<char>)
      modifies this
      ensures Target(name, startLine, endLine) == RangeSuffix(filename, old(startLine), old(endLine))
    {
      name := filename;
      if IndexOf(filename, '@') < |filename| {
        var parts := Split(filename, '@');
        name := parts[0];
        var lines := Split(parts[1], ':');
        if |lines| > 1 {
          startLine := Atoi(lines[0]);
          endLine := Atoi(lines[1]);
        } else {
          startLine := Atoi(lines[0]);
        }
      }
    }

    /** An end line of 0 becomes the file's newline count plus one. */
    method ResolveEndLine(contents: seq<char>)
      modifies this
      ensures startLine == old(startLine)
      ensures endLine == ResolveEnd(old(endLine), contents)
    {
      if endLine == 0 {
        endLine := Count(contents, '\n') + 1;
      }
    }
  }

  /** The buffer once the `-n` step has run: the numbered window, or the highlighted text itself. */
  function Numbered(w: seq<char>, lineNumbers: bool, start: int, end: int, style: Label): seq<char>
  {
    if lineNumbers then Unlines(WindowRows(Lines(w), start, end, style)) else w
  }

  /**
   * The end of `main` outside view mode, returning all it prints. The `-n`
   * step replaces the buffer with its numbered window. A search prints every
   * line of the buffer and drains it, so `usePipe` then prints an empty buffer:
   * a single newline. Without a search, `usePipe` prints the buffer.
   */
  method Output(w: seq<char>, lineNumbers: bool, start: int, end: int, findString: seq<char>, isTerminal: bool,
                lineStyle: Label, findStyle: Label) returns (printed: seq<char>)
    requires !isTerminal && findString == [] ==> AllHaveSpace(Lines(Numbered(w, lineNumbers, start, end, lineStyle)))
    ensures findString != [] ==>
      printed == Unlines(FindRows(Lines(Numbered(w, lineNumbers, start, end, lineStyle)), findString, findStyle)) + "\n"
    ensures findString == [] && isTerminal ==> printed == Numbered(w, lineNumbers, start, end, lineStyle) + "\n"
    ensures findString == [] && !isTerminal ==>
      printed == Strip(Unlines(StripGutters(Lines(Numbered(w, lineNumbers, start, end, lineStyle))))) + "\n"
      && ESC !in printed
  {
    var buffer := w;
    if lineNumbers {
      var out, err := UseLineNumbers(buffer, start, end, lineStyle);
      buffer := out;
    }
    printed := [];
    if findString != [] {
      printed := Find(buffer, findString, findStyle);
      buffer := [];
      assert Lines(buffer) == [];
      assert StripGutters([]) == [];
      assert Strip([]) == [];
    }
    var piped := UsePipe(buffer, isTerminal);
    printed := printed + piped;
  }
}

=== FILE: escape.dfy ===
/**
 * xcat's escape stripper (`escape` in main.go): a two-state scan over the
 * runes of a string. An ESC rune switches escape mode on; in escape mode every
 * rune is dropped up to and including the next `m`; every other rune is
 * copied. This is enough to remove the `ESC [ ... m` colour codes the
 * highlighter inserts, and it deliberately recognises nothing else.
 */
module EscapeScanner {

  const ESC: char := '\U{1B}'

  /** What the scan emits for `s` when it starts in escape mode `inEscape`. */
  function StripFrom(s: seq<char>, inEscape: bool): seq<char>
  {
    if s == [] then []
    else if s[0] == ESC then StripFrom(s[1..], true)
    else if inEscape then StripFrom(s[1..], s[0] != 'm')
    else [s[0]] + StripFrom(s[1..], false)
  }

  /** The escape mode the scan is in after reading `s` from mode `inEscape`. */
  function EndState(s: seq<char>, inEscape: bool): bool
  {
    if s == [] then inEscape
    else if s[0] == ESC then EndState(s[1..], true)
    else if inEscape then EndState(s[1..], s[0] != 'm')
    else EndState(s[1..], false)
  }

  /** The visible text of `s`: the scan started outside escape mode. */
  function Strip(s: seq<char>): seq<char>
  {
    StripFrom(s, false)
  }

  /** The colour code `ESC p m`, for a parameter text `p` without `m`. */
  function ColorCode(p: seq<char>): seq<char>
  {
    [ESC] + p + "m"
  }

  /** The escape-stripping loop of main.go, one decoded rune per step. */
  method Escape(s: seq<char>) returns (r: seq<char>)
    ensures r == Strip(s)
    ensures ESC !in r
  {
    var inEscapeCode := false;
    r := [];
    var i := 0;
    while i < |s|
      invariant 0 <= i <= |s|
      invariant r + StripFrom(s[i..], inEscapeCode) == Strip(s)
    {
      var c := s[i];
      assert s[i..][1..] == s[i + 1..];
      if c == ESC {
        inEscapeCode := true;
        i := i + 1;
        continue;
      }
      if inEscapeCode {
        if c == 'm' {
          inEscapeCode := false;
        }
        i := i + 1;
        continue;
      }
      r := r + [c];
      i := i + 1;
    }
    NoEscInStrip(s, false);
  }

  /** No ESC rune survives the scan: every ESC is consumed without being written. */
  lemma {:induction false} NoEscInStrip(s: seq<char>, inEscape: bool)
    ensures ESC !in StripFrom(s, inEscape)
    decreases |s|
  {
    if s != [] {
      NoEscInStrip(s[1..], s[0] == ESC || (inEscape && s[0] != 'm'));
    }
  }

  /** Text without ESC is copied unchanged. */
  lemma {:induction false} StripWithoutEsc(s: seq<char>)
    requires ESC !in s
    ensures Strip(s) == s
    decreases |s|
  {
    if s != [] {
      assert s == [s[0]] + s[1..];
      StripWithoutEsc(s[1..]);
    }
  }

  /** Stripping twice is stripping once. */
  lemma StripIdempotent(s: seq<char>)
    ensures Strip(Strip(s)) == Strip(s)
  {
    NoEscInStrip(s, false);
    StripWithoutEsc(Strip(s));
  }

  /** The scan never emits more runes than it reads. */
  lemma {:induction false} StripShrinks(s: seq<char>, inEscape: bool)
    ensures |StripFrom(s, inEscape)| <= |s|
    decreases |s|
  {
    if s != [] {
      StripShrinks(s[1..], s[0] == ESC || (inEscape && s[0] != 'm'));
    }
  }

  /** The scan of a concatenation continues the scan of its first part. */
  lemma {:induction false} StripAppend(a: seq<char>, b: seq<char>, inEscape: bool)
    ensures StripFrom(a + b, inEscape) == StripFrom(a, inEscape) + StripFrom(b, EndState(a, inEscape))
    ensures EndState(a + b, inEscape) == EndState(b, EndState(a, inEscape))
    decreases |a|
  {
    if a == [] {
      assert a + b == b;
    } else {
      assert (a + b)[1..] == a[1..] + b;
      StripAppend(a[1..], b, a[0] == ESC || (inEscape && a[0] != 'm'));
    }
  }

  /** In escape mode, text without `m` is dropped entirely and leaves the mode on. */
  lemma {:induction false} EscapeModeWithoutM(s: seq<char>)
    requires 'm' !in s
    ensures StripFrom(s, true) == [] && EndState(s, true)
    decreases |s|
  {
    if s != [] {
      EscapeModeWithoutM(s[1..]);
    }
  }

  /**
   * An ESC with no `m` after it swallows the rest of the input: the result is
   * what the text before the ESC strips to, and no error arises.
   */
  lemma UnterminatedEscapeSwallowsRest(s: seq<char>, k: nat)
    requires k < |s| && s[k] == ESC && 'm' !in s[k + 1..]
    ensures Strip(s) == Strip(s[..k])
  {
    assert s == s[..k] + ([ESC] + s[k + 1..]);
    StripAppend(s[..k], [ESC] + s[k + 1..], false);
    assert ([ESC] + s[k + 1..])[1..] == s[k + 1..];
    EscapeModeWithoutM(s[k + 1..]);
  }

  /**
   * A colour code `ESC p m` ends whatever escape the scan is in: the visible
   * text is that of `a`, then that of `b` scanned afresh outside escape mode.
   * When `a` ends inside an unterminated escape, the code therefore brings
   * back text of `b` that `a + b` alone would have swallowed.
   */
  lemma ColorCodeResetsScan(a: seq<char>, p: seq<char>, b: seq<char>)
    requires 'm' !in p
    ensures Strip(a + ColorCode(p) + b) == Strip(a) + Strip(b)
  {
    var code := ColorCode(p);
    var e := EndState(a, false);
    StripAppend(a, code + b, false);
    StripAppend(code, b, e);
    assert code[1..] == p + "m";
    StripAppend(p, "m", true);
    EscapeModeWithoutM(p);
    assert a + code + b == a + (code + b);
  }

  /**
   * Inserting a colour code `ESC p m` at a point where the scan is outside
   * escape mode leaves the visible text unchanged.
   */
  lemma ColorCodeInvisible(a: seq<char>, p: seq<char>, b: seq<char>)
    requires 'm' !in p && !EndState(a, false)
    ensures Strip(a + ColorCode(p) + b) == Strip(a + b)
  {
    ColorCodeResetsScan(a, p, b);
    StripAppend(a, b, false);
  }

  /** A colour code after an unterminated ESC is not invisible: `ESC x` shows nothing, `ESC code x` shows `x`. */
  lemma ColorCodeAfterOpenEscape()
    ensures Strip([ESC] + "x") == []
    ensures Strip([ESC] + ColorCode([]) + "x") == "x"
  {
    UnterminatedEscapeSwallowsRest([ESC] + "x", 0);
    UnterminatedEscapeSwallowsRest([ESC], 0);
    ColorCodeResetsScan([ESC], [], "x");
    assert Strip("x") == "x" by {
      assert "x"[1..] == [];
    }
  }
}

=== FILE: gostrings.dfy ===
/** Option, used for the `error` results of the modelled Go functions. */
module Results {
  datatype Option<+T> = None | Some(value: T)
}

/**
 * The parts of Go's `strings`, `bytes` and `strconv` packages that xcat's
 * rendering pipeline relies on, over strings seen as sequences of code points.
 */
module GoStrings {

  const MaxInt64: int := 0x7fff_ffff_ffff_ffff
  const MinInt64: int := -0x8000_0000_0000_0000

  /** Index of the first `c` in `s`, or `|s|` when `s` has none (`strings.IndexByte`, with -1 read as `|s|`). */
  function IndexOf(s: seq<char>, c: char): (n: nat)
    ensures n <= |s|
    ensures n < |s| ==> s[n] == c
    ensures forall j :: 0 <= j < n ==> s[j] != c
  {
    if s == [] then 0
    else if s[0] == c then 0
    else 1 + IndexOf(s[1..], c)
  }

  /** Number of occurrences of `c` in `s` (`bytes.Count` with a one-byte separator). */
  function Count(s: seq<char>, c: char): (n: nat)
    ensures n <= |s|
    ensures n == 0 <==> c !in s
  {
    if s == [] then 0
    else (if s[0] == c then 1 else 0) + Count(s[1..], c)
  }

  lemma {:induction false} CountAppend(a: seq<char>, b: seq<char>, c: char)
    ensures Count(a + b, c) == Count(a, c) + Count(b, c)
    decreases |a|
  {
    if a == [] {
      assert a + b == b;
    } else {
      assert (a + b)[1..] == a[1..] + b;
      CountAppend(a[1..], b, c);
    }
  }

  /** `strings.Contains(t, q)`: `q` occurs in `t` as a contiguous run. */
  predicate Contains(t: seq<char>, q: seq<char>)
  {
    q <= t || (t != [] && Contains(t[1..], q))
  }

  /** `strings.Join(fields, string(sep))`. */
  function Join(fields: seq<seq<char>>, sep: char): seq<char>
  {
    if fields == [] then []
    else if |fields| == 1 then fields[0]
    else fields[0] + [sep] + Join(fields[1..], sep)
  }

  /**
   * `strings.Split(s, string(sep))`: the maximal `sep`-free runs of `s`,
   * always at least one (the empty string splits into one empty field).
   */
  function Split(s: seq<char>, sep: char): (fields: seq<seq<char>>)
    ensures |fields| >= 1
    ensures (sep in s) == (|fields| > 1)
    ensures forall k :: 0 <= k < |fields| ==> sep !in fields[k]
    ensures Join(fields, sep) == s
    decreases |s|
  {
    var n := IndexOf(s, sep);
    if n == |s| then [s]
    else
      var tail := Split(s[n + 1..], sep);
      assert s == s[..n] + [sep] + s[n + 1..];
      [s[..n]] + tail
  }

  /** Splitting at a first separator yields the text before it, then the fields of the rest. */
  lemma SplitAtFirst(a: seq<char>, sep: char, b: seq<char>)
    requires sep !in a
    ensures Split(a + [sep] + b, sep) == [a] + Split(b, sep)
  {
    var s := a + [sep] + b;
    var n := IndexOf(s, sep);
    assert s[|a|] == sep;
    assert forall j :: 0 <= j < |a| ==> s[j] == a[j];
    assert n == |a|;
    assert s[..n] == a;
    assert s[n + 1..] == b;
  }

  /** Text without the separator splits into itself alone. */
  lemma SplitNone(s: seq<char>, sep: char)
    requires sep !in s
    ensures Split(s, sep) == [s]
  {
  }

  predicate IsDigit(c: char)
  {
    '0' <= c <= '9'
  }

  predicate AllDigits(ds: seq<char>)
  {
    ds != [] && forall k :: 0 <= k < |ds| ==> IsDigit(ds[k])
  }

  function DigitChar(d: nat): (c: char)
    requires d <= 9
    ensures IsDigit(c) && c as int - '0' as int == d
  {
    ('0' as int + d) as char
  }

  function DigitValue(c: char): nat
    requires IsDigit(c)
  {
    c as int - '0' as int
  }

  /** Decimal value of a run of digits, most significant first. */
  function DigitsValue(ds: seq<char>): nat
    requires forall k :: 0 <= k < |ds| ==> IsDigit(ds[k])
  {
    if ds == [] then 0
    else DigitsValue(ds[..|ds| - 1]) * 10 + DigitValue(ds[|ds| - 1])
  }

  /** Decimal digits of a natural number, without leading zeros. */
  function Utoa(n: nat): (ds: seq<char>)
    ensures AllDigits(ds)
    ensures |ds| > 1 ==> ds[0] != '0'
  {
    if n < 10 then [DigitChar(n)]
    else Utoa(n / 10) + [DigitChar(n % 10)]
  }

  /** `strconv.Itoa(n)`: a minus sign for negative numbers, then the decimal digits. */
  function Itoa(n: int): (s: seq<char>)
    ensures s != []
    ensures forall k :: 0 <= k < |s| ==> IsDigit(s[k]) || (k == 0 && n < 0 && s[k] == '-')
    ensures n >= 0 ==> AllDigits(s) && DigitsValue(s) == n
    ensures n < 0 ==> s[0] == '-' && AllDigits(s[1..]) && DigitsValue(s[1..]) == -n
  {
    if n < 0 then
      DigitsValueOfUtoa(-n);
      assert ("-" + Utoa(-n))[1..] == Utoa(-n);
      "-" + Utoa(-n)
    else
      DigitsValueOfUtoa(n);
      Utoa(n)
  }

  /** An integer clamped to Go's 64-bit `int`, as `strconv.ParseInt` does on a range error. */
  function Clamp64(v: int): (r: int)
    ensures MinInt64 <= r <= MaxInt64
    ensures MinInt64 <= v <= MaxInt64 ==> r == v
  {
    if v > MaxInt64 then MaxInt64 else if v < MinInt64 then MinInt64 else v
  }

  /**
   * `strconv.Atoi(s)` with its error dropped, as xcat calls it: an optional
   * sign followed by at least one decimal digit gives its value (saturated to
   * the 64-bit range); anything else gives 0.
   */
  function Atoi(s: seq<char>): (n: int)
    ensures MinInt64 <= n <= MaxInt64
    ensures !(AllDigits(s) || (s != [] && (s[0] == '+' || s[0] == '-') && AllDigits(s[1..]))) ==> n == 0
    ensures AllDigits(s) ==> n == Clamp64(DigitsValue(s))
    ensures s != [] && s[0] == '+' && AllDigits(s[1..]) ==> n == Clamp64(DigitsValue(s[1..]))
    ensures s != [] && s[0] == '-' && AllDigits(s[1..]) ==> n == Clamp64(-(DigitsValue(s[1..]) as int))
  {
    if s != [] && (s[0] == '+' || s[0] == '-') then
      if AllDigits(s[1..]) then
        var v: int := DigitsValue(s[1..]);
        Clamp64(if s[0] == '-' then -v else v)
      else 0
    else if AllDigits(s) then Clamp64(DigitsValue(s))
    else 0
  }

  lemma {:induction false} DigitsValueOfUtoa(n: nat)
    ensures DigitsValue(Utoa(n)) == n
  {
    if n >= 10 {
      var ds := Utoa(n);
      assert ds[..|ds| - 1] == Utoa(n / 10);
      DigitsValueOfUtoa(n / 10);
    }
  }

  /** A leading zero does not change the value of a digit run. */
  lemma {:induction false} DigitsValueLeadingZero(ds: seq<char>)
    requires AllDigits(ds)
    ensures AllDigits("0" + ds) && DigitsValue("0" + ds) == DigitsValue(ds)
    decreases |ds|
  {
    var zs := "0" + ds;
    assert zs[|zs| - 1] == ds[|ds| - 1];
    if |ds| == 1 {
      assert zs[..|zs| - 1] == "0";
      assert DigitsValue("0") == DigitsValue("0"[..0]) * 10 + DigitValue('0');
    } else {
      var init := ds[..|ds| - 1];
      assert zs[..|zs| - 1] == "0" + init;
      DigitsValueLeadingZero(init);
    }
  }

  /** `strconv.Atoi` ignores leading zeros: `Atoi("007") == Atoi("7")`. */
  lemma AtoiLeadingZero(ds: seq<char>)
    requires AllDigits(ds)
    ensures Atoi("0" + ds) == Atoi(ds)
  {
    DigitsValueLeadingZero(ds);
  }

  /** A leading zero after a sign is ignored too: `Atoi("-007") == Atoi("-7")`. */
  lemma AtoiSignedLeadingZero(sign: char, ds: seq<char>)
    requires sign == '+' || sign == '-'
    requires AllDigits(ds)
    ensures Atoi([sign] + "0" + ds) == Atoi([sign] + ds)
  {
    DigitsValueLeadingZero(ds);
    assert ([sign] + "0" + ds)[1..] == "0" + ds;
    assert ([sign] + ds)[1..] == ds;
  }

  /** A plus sign before an unsigned text changes nothing: `Atoi("+5") == Atoi("5")`. */
  lemma AtoiPlus(s: seq<char>)
    requires s == [] || (s[0] != '+' && s[0] != '-')
    ensures Atoi("+" + s) == Atoi(s)
  {
    assert ("+" + s)[1..] == s;
  }

  /** `strconv.Atoi` reads back every 64-bit integer that `strconv.Itoa` writes. */
  lemma AtoiOfItoa(n: int)
    requires MinInt64 <= n <= MaxInt64
    ensures Atoi(Itoa(n)) == n
  {
    if n < 0 {
      var s := Itoa(n);
      assert s[1..] == Utoa(-n);
      DigitsValueOfUtoa(-n);
    } else {
      DigitsValueOfUtoa(n);
    }
  }
}

=== FILE: pager.dfy ===
/**
 * The full-screen pager of viewport.go: a model that waits for the first
 * window size, then loads its content into a scrollable viewport, follows
 * later resizes, and quits on one of four keys. The viewport component
 * itself (scrolling, its rendering, its commands) is not modelled: the
 * environment supplies the new scroll offset and the rendered body.
 */
module Pager {
  import opened GoStrings
  import opened LineScan
  import opened Render

  /** The viewport fields the pager sets or reads. */
  datatype Viewport = Viewport(
    width: int,
    height: int,
    yPosition: int,
    yOffset: int,
    highPerformance: bool,
    content: seq<char>)

  /** A viewport before it has been sized: every field zero. */
  const ZeroViewport: Viewport := Viewport(0, 0, 0, 0, false, [])

  /** The pager model's fields, as a value. */
  datatype State = State(content: seq<char>, ready: bool, viewport: Viewport, title: seq<char>)

  /** The events the pager distinguishes; mouse and any other event are `OtherMsg`. */
  datatype Msg = KeyMsg(key: seq<char>) | WindowSizeMsg(width: int, height: int) | OtherMsg

  /**
   * The commands `Update` returns. `ViewportCmd` stands for whatever the
   * viewport's own update asks for, `Sync` for the full repaint of the
   * high-performance renderer.
   */
  datatype Cmd = Quit | Sync | ViewportCmd | Batch(cmds: seq<Cmd>)

  /**
   * What the pager takes from code that is not modelled: the rendered header
   * for a title, the rendered footer, the content style, the scroll offset
   * the viewport's update settles on, and the viewport's rendered body.
   */
  datatype Env = Env(
    headerView: seq<char> -> seq<char>,
    footerView: seq<char>,
    renderContent: seq<char> -> seq<char>,
    scroll: (Viewport, Msg) -> int,
    body: Viewport -> seq<char>)

  const UseHighPerformanceRenderer: bool := true

  /** `lipgloss.Height`: the number of lines of a rendered block. */
  function Height(s: seq<char>): (h: int)
    ensures h >= 1
  {
    Count(s, '\n') + 1
  }

  function HeaderHeight(s: State, env: Env): int
  {
    Height(env.headerView(s.title))
  }

  function MarginHeight(s: State, env: Env): int
  {
    HeaderHeight(s, env) + Height(env.footerView)
  }

  predicate IsQuitKey(k: seq<char>)
  {
    k == "ctrl+c" || k == "q" || k == "esc" || k == "enter"
  }

  predicate Quits(msg: Msg)
  {
    msg.KeyMsg? && IsQuitKey(msg.key)
  }

  /**
   * The pager's transition on one event. A quit key returns the model as it
   * is with the quit command. The first window size creates the viewport:
   * its width, its height (the window's minus the header and footer), its
   * position just below the header, the styled content, and `ready`. A later
   * window size changes only the viewport's width and height. Every event
   * but a quit key then lets the viewport update its scroll offset, and
   * nothing else.
   */
  function Step(s: State, msg: Msg, env: Env): (r: (State, Cmd))
    ensures Quits(msg) ==> r == (s, Quit)
    ensures !Quits(msg) ==> r.1 == Batch(if msg.WindowSizeMsg? then [Sync, ViewportCmd] else [ViewportCmd])
    ensures r.0.content == s.content && r.0.title == s.title
    ensures s.ready ==> r.0.ready
    ensures msg.WindowSizeMsg? ==>
      r.0.ready && r.0.viewport.width == msg.width && r.0.viewport.height == msg.height - MarginHeight(s, env)
    ensures msg.WindowSizeMsg? && !s.ready ==>
      r.0.viewport.content == env.renderContent(s.content) && r.0.viewport.yPosition == HeaderHeight(s, env) + 1
      && r.0.viewport.highPerformance
    ensures msg.WindowSizeMsg? && s.ready ==>
      r.0.viewport == s.viewport.(width := msg.width, height := msg.height - MarginHeight(s, env), yOffset := r.0.viewport.yOffset)
    ensures !msg.WindowSizeMsg? && !Quits(msg) ==>
      r.0 == s.(viewport := s.viewport.(yOffset := env.scroll(s.viewport, msg)))
  {
    if Quits(msg) then (s, Quit)
    else
      var sized := if msg.WindowSizeMsg? then Resize(s, msg.width, msg.height, env) else s;
      var vp := sized.viewport;
      (sized.(viewport := vp.(yOffset := env.scroll(vp, msg))),
       Batch(if msg.WindowSizeMsg? then [Sync, ViewportCmd] else [ViewportCmd]))
  }

  /** The window-size branch of `Update`, before the viewport's own update. */
  function Resize(s: State, width: int, height: int, env: Env): State
  {
    var margin := MarginHeight(s, env);
    if !s.ready then
      s.(viewport := Viewport(width, height - margin, HeaderHeight(s, env) + 1, 0,
                              UseHighPerformanceRenderer, env.renderContent(s.content)),
         ready := true)
    else
      s.(viewport := s.viewport.(width := width, height := height - margin))
  }

  /** What `View` shows before the first window size: a blank line, then a notice. */
  const Placeholder: seq<char> := "\n  Initializing..."

  /**
   * `View`: the placeholder until the first window size; then a frame with
   * the header on top, the viewport's body between newlines, the footer at
   * the bottom, exactly as tall as header, body and footer together.
   */
  function View(s: State, env: Env): (v: seq<char>)
    ensures !s.ready ==> v == Placeholder && Height(v) == 2
    ensures s.ready ==> env.headerView(s.title) + "\n" <= v
    ensures s.ready ==> |v| > |env.footerView| && v[|v| - |env.footerView| - 1..] == "\n" + env.footerView
    ensures s.ready ==> (|env.headerView(s.title)| + 1 <= |v| - |env.footerView| - 1 &&
                         v[|env.headerView(s.title)| + 1..|v| - |env.footerView| - 1] == env.body(s.viewport))
    ensures s.ready ==> Height(v) == HeaderHeight(s, env) + Height(env.body(s.viewport)) + Height(env.footerView)
  {
    if !s.ready then
      PlaceholderHeight();
      Placeholder
    else
      var h, b, f := env.headerView(s.title), env.body(s.viewport), env.footerView;
      Frame(h, b, f);
      h + "\n" + b + "\n" + f
  }

  lemma PlaceholderHeight()
    ensures Height(Placeholder) == 2
  {
    var notice := "  Initializing...";
    assert Placeholder == [Placeholder[0]] + notice;
    forall k | 0 <= k < |notice|
      ensures notice[k] != '\n'
    {
    }
    assert Count(notice, '\n') == 0;
  }

  /** Joining three blocks with newlines puts the first on top, the second between, the last at the bottom, and adds their heights. */
  lemma Frame(h: seq<char>, b: seq<char>, f: seq<char>)
    ensures h + "\n" <= h + "\n" + b + "\n" + f
    ensures var v := h + "\n" + b + "\n" + f; v[|v| - |f| - 1..] == "\n" + f
    ensures var v := h + "\n" + b + "\n" + f; v[|h| + 1..|v| - |f| - 1] == b
    ensures Height(h + "\n" + b + "\n" + f) == Height(h) + Height(b) + Height(f)
  {
    var v := h + "\n" + b + "\n" + f;
    assert v == (h + "\n") + (b + "\n" + f);
    assert v == (h + "\n" + b) + ("\n" + f);
    CountAppend(h + "\n" + b, "\n" + f, '\n');
    CountAppend(h + "\n", b, '\n');
    CountAppend(h, "\n", '\n');
    CountAppend("\n", f, '\n');
    assert Count("\n", '\n') == 1;
  }

  /**
   * After any window size, a body that fills the viewport's height makes the
   * frame exactly as tall as the window.
   */
  lemma ResizedFrameFillsWindow(s: State, width: int, height: int, env: Env)
    requires var t := Step(s, WindowSizeMsg(width, height), env).0;
      Height(env.body(t.viewport)) == t.viewport.height
    ensures Height(View(Step(s, WindowSizeMsg(width, height), env).0, env)) == height
  {
    var t := Step(s, WindowSizeMsg(width, height), env).0;
    assert t.ready;
  }

  /** `max`. */
  function Max(a: int, b: int): (r: int)
    ensures r >= a && r >= b
    ensures r == a || r == b
  {
    if a > b then a else b
  }

  /**
   * The model's fields after a sequence of events, stopping at the first quit
   * key; `quit` says whether one was seen.
   */
  datatype Outcome = Outcome(state: State, quit: bool)

  function Run(s: State, msgs: seq<Msg>, env: Env): Outcome
    decreases |msgs|
  {
    if msgs == [] then Outcome(s, false)
    else
      var (t, cmd) := Step(s, msgs[0], env);
      if cmd == Quit then Outcome(t, true) else Run(t, msgs[1..], env)
  }

  /** Once ready, the pager stays ready, and its content and title never change. */
  lemma {:induction false} RunKeepsReady(s: State, msgs: seq<Msg>, env: Env)
    ensures s.ready ==> Run(s, msgs, env).state.ready
    ensures Run(s, msgs, env).state.content == s.content && Run(s, msgs, env).state.title == s.title
    decreases |msgs|
  {
    if msgs != [] {
      RunKeepsReady(Step(s, msgs[0], env).0, msgs[1..], env);
    }
  }

  /** A window size that no quit key precedes leaves the pager ready. */
  lemma {:induction false} RunReadyAfterResize(s: State, msgs: seq<Msg>, i: nat, env: Env)
    requires i < |msgs| && msgs[i].WindowSizeMsg?
    requires forall j :: 0 <= j < i ==> !Quits(msgs[j])
    ensures Run(s, msgs, env).state.ready
    decreases i
  {
    var t := Step(s, msgs[0], env).0;
    if i == 0 {
      RunKeepsReady(t, msgs[1..], env);
    } else {
      RunReadyAfterResize(t, msgs[1..], i - 1, env);
    }
  }

  /** Events after a quit key are never processed. */
  lemma {:induction false} RunStopsAtQuit(s: State, msgs: seq<Msg>, k: seq<char>, rest: seq<Msg>, env: Env)
    requires IsQuitKey(k)
    ensures Run(s, msgs + [KeyMsg(k)] + rest, env) == Run(s, msgs + [KeyMsg(k)], env)
    ensures Run(s, msgs + [KeyMsg(k)], env).quit
    decreases |msgs|
  {
    if msgs == [] {
      assert ([] + [KeyMsg(k)] + rest)[0] == KeyMsg(k);
      assert ([] + [KeyMsg(k)])[0] == KeyMsg(k);
    } else {
      var t := Step(s, msgs[0], env).0;
      assert (msgs + [KeyMsg(k)] + rest)[1..] == msgs[1..] + [KeyMsg(k)] + rest;
      assert (msgs + [KeyMsg(k)])[1..] == msgs[1..] + [KeyMsg(k)];
      RunStopsAtQuit(t, msgs[1..], k, rest, env);
    }
  }

  /**
   * A ready pager shows its own content, styled, in a high-performance
   * viewport placed just below the header.
   */
  predicate Consistent(s: State, env: Env)
  {
    s.ready ==>
      s.viewport.content == env.renderContent(s.content)
      && s.viewport.yPosition == HeaderHeight(s, env) + 1
      && s.viewport.highPerformance
  }

  /** Every sequence of events keeps the pager consistent; in particular, resizes never reload the content. */
  lemma {:induction false} RunConsistent(s: State, msgs: seq<Msg>, env: Env)
    requires Consistent(s, env)
    ensures Consistent(Run(s, msgs, env).state, env)
    decreases |msgs|
  {
    if msgs != [] {
      var t := Step(s, msgs[0], env).0;
      assert HeaderHeight(t, env) == HeaderHeight(s, env);
      RunConsistent(t, msgs[1..], env);
    }
  }

  /** The pager model, whose `Update` assigns its fields. */
  class Model {
    var content: seq<char>
    var ready: bool
    var viewport: Viewport
    var title: seq<char>

    /** `model{content: content, title: title}`: not ready, with a zero viewport. */
    constructor (content: seq<char>, title: seq<char>)
      ensures Snapshot() == State(content, false, ZeroViewport, title)
    {
      this.content := content;
      ready := false;
      viewport := ZeroViewport;
      this.title := title;
    }

    function Snapshot(): State
      reads this
    {
      State(content, ready, viewport, title)
    }

    /** `Update`: one event, assigning the fields as the transition `Step` describes. */
    method Update(msg: Msg, env: Env) returns (cmd: Cmd)
      modifies this
      ensures (Snapshot(), cmd) == Step(old(Snapshot()), msg, env)
    {
      ghost var before := Snapshot();
      var cmds: seq<Cmd> := [];
      match msg {
        case KeyMsg(k) =>
          if k == "ctrl+c" || k == "q" || k == "esc" || k == "enter" {
            assert Quits(msg);
            return Quit;
          }
          assert !Quits(msg) && Snapshot() == before;
        case WindowSizeMsg(width, height) =>
          var headerHeight := Height(env.headerView(title));
          var footerHeight := Height(env.footerView);
          var verticalMarginHeight := headerHeight + footerHeight;
          if !ready {
            viewport := Viewport(width, height - verticalMarginHeight, 0, 0, false, []);
            viewport := viewport.(yPosition := headerHeight);
            viewport := viewport.(highPerformance := UseHighPerformanceRenderer);
            viewport := viewport.(content := env.renderContent(content));
            ready := true;
            viewport := viewport.(yPosition := headerHeight + 1);
          } else {
            viewport := viewport.(width := width);
            viewport := viewport.(height := height - verticalMarginHeight);
          }
          if UseHighPerformanceRenderer {
            cmds := cmds + [Sync];
          }
          assert Snapshot() == Resize(before, width, height, env);
        case OtherMsg =>
          assert Snapshot() == before;
      }
      viewport := viewport.(yOffset := env.scroll(viewport, msg));
      cmds := cmds + [ViewportCmd];
      cmd := Batch(cmds);
      assert cmd == Step(before, msg, env).1;
      assert Snapshot() == Step(before, msg, env).0;
    }
  }

  /** `applyLineNumbers`: every scanned line behind the gutter of its number, counting from 1. */
  method ApplyLineNumbers(content: seq<char>, style: Label) returns (r: seq<char>)
    ensures r == Unlines(NumberRows(Lines(content), 1, style))
    ensures r == Unlines(WindowRows(Lines(content), 1, 0, style))
  {
    var scanner := new LineScanner(content);
    ghost var lines := Lines(content);
    r := [];
    var i := 1;
    while true
      invariant 1 <= i <= |lines| + 1
      invariant Lines(scanner.rest) == lines[i - 1..]
      invariant r == Unlines(NumberRows(lines[..i - 1], 1, style))
      decreases |scanner.rest|
    {
      ghost var before := scanner.rest;
      var more := scanner.Scan();
      ScanAdvance(lines, i - 1, before, more, scanner.token, scanner.rest);
      if !more {
        break;
      }
      var row := style(Itoa(i)) + " " + scanner.token;
      assert lines[..i] == lines[..i - 1] + [lines[i - 1]];
      NumberRowsSnoc(lines[..i - 1], lines[i - 1], 1, style);
      UnlinesSnoc(NumberRows(lines[..i - 1], 1, style), row);
      r := r + (row + "\n");
      i := i + 1;
    }
    assert lines[..i - 1] == lines;
    WindowWhole(lines, style);
  }

  /** `Show`, up to starting the event loop: the model it hands to the program. */
  method Show(title: seq<char>, content: seq<char>, useLineNumbers: bool, style: Label) returns (m: Model)
    ensures fresh(m)
    ensures m.Snapshot() ==
      State(if useLineNumbers then Unlines(NumberRows(Lines(content), 1, style)) else content, false, ZeroViewport, title)
  {
    var shown := content;
    if useLineNumbers {
      shown := ApplyLineNumbers(content, style);
    }
    m := new Model(shown, title);
  }
}

=== FILE: render.dfy ===
/**
 * The line-oriented rendering of main.go: windowing with a line-number gutter
 * (`useLineNumbers`), search highlighting (`find`), gutter removal
 * (`removeLineNumbers`) and the terminal/pipe output choice (`usePipe`).
 * Each loop reads its input with a line scanner and appends one row per
 * token; each is specified as `Unlines` of the rows it produces.
 */
module Render {
  import opened Results
  import opened GoStrings
  import opened LineScan
  import opened EscapeScanner

  /** A lipgloss style's `Render`, applied to a line-number numeral; its output is not modelled. */
  type Label = seq<char> -> seq<char>

  /** The guard of `useLineNumbers`: line `i` lies in `[start, end]`, where `end == 0` means no upper bound. */
  predicate InWindow(i: int, start: int, end: int)
  {
    i >= start && (end == 0 || i <= end)
  }

  /** A gutter row: the styled numeral, one space, then the line. */
  function Gutter(style: Label, i: int, line: seq<char>): seq<char>
  {
    style(Itoa(i)) + " " + line
  }

  /** The rows `useLineNumbers` writes: scanned lines numbered from 1, kept when in the window. */
  function WindowRows(lines: seq<seq<char>>, start: int, end: int, style: Label): seq<seq<char>>
    decreases |lines|
  {
    if lines == [] then []
    else
      var n := |lines|;
      WindowRows(lines[..n - 1], start, end, style)
        + (if InWindow(n, start, end) then [Gutter(style, n, lines[n - 1])] else [])
  }

  /** Lines numbered consecutively from `first`, each behind its gutter. */
  function NumberRows(lines: seq<seq<char>>, first: int, style: Label): seq<seq<char>>
  {
    seq(|lines|, k requires 0 <= k < |lines| => Gutter(style, first + k, lines[k]))
  }

  /** First line number the window keeps: `start`, raised to 1. */
  function WindowLo(start: int): int
  {
    if start < 1 then 1 else start
  }

  /** Last line number the window keeps over `n` lines: `end`, or `n` when `end` is 0 or beyond it. */
  function WindowHi(n: nat, end: int): int
  {
    if end == 0 || end > n then n else end
  }

  /** The lines the window keeps, as one contiguous slice. */
  function WindowLines(lines: seq<seq<char>>, start: int, end: int): seq<seq<char>>
  {
    var lo, hi := WindowLo(start), WindowHi(|lines|, end);
    if lo <= hi then lines[lo - 1..hi] else []
  }

  /** A line number is in the window exactly when it lies between its first and last line. */
  lemma WindowBounds(n: nat, start: int, end: int, i: int)
    requires 1 <= i <= n
    ensures InWindow(i, start, end) <==> WindowLo(start) <= i <= WindowHi(n, end)
  {
  }

  /**
   * `useLineNumbers` keeps exactly the lines numbered `WindowLo .. WindowHi`,
   * in their original order, each behind the gutter of its own number.
   */
  lemma {:induction false} WindowContiguous(lines: seq<seq<char>>, start: int, end: int, style: Label)
    ensures WindowRows(lines, start, end, style) == NumberRows(WindowLines(lines, start, end), WindowLo(start), style)
    decreases |lines|
  {
    if lines != [] {
      var prefix := lines[..|lines| - 1];
      WindowContiguous(prefix, start, end, style);
      if InWindow(|lines|, start, end) {
        WindowGrows(lines, start, end, style);
      } else {
        WindowStays(lines, start, end, style);
      }
    }
  }

  /** Inductive step of WindowContiguous when the last line is kept. */
  lemma WindowGrows(lines: seq<seq<char>>, start: int, end: int, style: Label)
    requires lines != [] && InWindow(|lines|, start, end)
    requires WindowRows(lines[..|lines| - 1], start, end, style)
      == NumberRows(WindowLines(lines[..|lines| - 1], start, end), WindowLo(start), style)
    ensures WindowRows(lines, start, end, style) == NumberRows(WindowLines(lines, start, end), WindowLo(start), style)
  {
    var n := |lines|;
    var keptP := WindowLines(lines[..n - 1], start, end);
    var x := lines[n - 1];
    WindowLinesGrow(lines, start, end);
    NumberRowsSnoc(keptP, x, WindowLo(start), style);
    assert WindowRows(lines, start, end, style) == WindowRows(lines[..n - 1], start, end, style) + [Gutter(style, n, x)];
  }

  lemma NumberRowsSnoc(lines: seq<seq<char>>, x: seq<char>, first: int, style: Label)
    ensures NumberRows(lines + [x], first, style) == NumberRows(lines, first, style) + [Gutter(style, first + |lines|, x)]
  {
  }

  /** When the last line is in the window, the kept slice grows by that line. */
  lemma WindowLinesGrow(lines: seq<seq<char>>, start: int, end: int)
    requires lines != [] && InWindow(|lines|, start, end)
    ensures WindowLines(lines, start, end) == WindowLines(lines[..|lines| - 1], start, end) + [lines[|lines| - 1]]
    ensures WindowLo(start) + |WindowLines(lines[..|lines| - 1], start, end)| == |lines|
  {
    var n := |lines|;
    WindowReachesLast(n, start, end);
    SliceSnoc(lines, WindowLo(start) - 1);
  }

  /** The window holds the last of `n` lines: it then ends at line `n`, and without that line at `n - 1`. */
  lemma WindowReachesLast(n: nat, start: int, end: int)
    requires n >= 1 && InWindow(n, start, end)
    ensures WindowHi(n, end) == n && WindowHi(n - 1, end) == n - 1
    ensures 1 <= WindowLo(start) <= n
  {
  }

  lemma SliceSnoc<T>(s: seq<T>, lo: nat)
    requires lo < |s|
    ensures s[lo..|s|] == s[..|s| - 1][lo..|s| - 1] + [s[|s| - 1]]
    ensures lo < |s| - 1 || s[..|s| - 1][lo..|s| - 1] == []
  {
  }

  /** When the last line is outside the window, neither the rows nor the kept slice change. */
  lemma WindowStays(lines: seq<seq<char>>, start: int, end: int, style: Label)
    requires lines != [] && !InWindow(|lines|, start, end)
    ensures WindowRows(lines, start, end, style) == WindowRows(lines[..|lines| - 1], start, end, style)
    ensures WindowLines(lines, start, end) == WindowLines(lines[..|lines| - 1], start, end)
  {
    var n := |lines|;
    var lo, hi := WindowLo(start), WindowHi(n, end);
    if lo <= hi {
      assert hi == WindowHi(n - 1, end) && hi < n;
      assert lines[lo - 1..hi] == lines[..n - 1][lo - 1..hi];
    }
  }

  /** One more scanned line either adds its gutter row to the window or leaves it unchanged. */
  lemma WindowRowsStep(lines: seq<seq<char>>, i: nat, start: int, end: int, style: Label)
    requires 1 <= i <= |lines|
    ensures WindowRows(lines[..i], start, end, style)
      == WindowRows(lines[..i - 1], start, end, style)
         + (if InWindow(i, start, end) then [Gutter(style, i, lines[i - 1])] else [])
  {
    assert lines[..i][..i - 1] == lines[..i - 1];
  }

  /** The window is empty when it starts past the last line, or ends before it starts. */
  lemma WindowEmpty(lines: seq<seq<char>>, start: int, end: int, style: Label)
    requires start > |lines| || (end != 0 && start > end)
    ensures WindowRows(lines, start, end, style) == []
  {
    WindowContiguous(lines, start, end, style);
  }

  /** An end at or past the last line keeps the same rows as no end at all. */
  lemma WindowEndBeyond(lines: seq<seq<char>>, start: int, end: int, style: Label)
    requires end >= |lines|
    ensures WindowRows(lines, start, end, style) == WindowRows(lines, start, 0, style)
  {
    WindowContiguous(lines, start, end, style);
    WindowContiguous(lines, start, 0, style);
    assert WindowHi(|lines|, end) == WindowHi(|lines|, 0);
  }

  /** The window `[1, 0]` numbers every line: it is the whole file behind gutters. */
  lemma WindowWhole(lines: seq<seq<char>>, style: Label)
    ensures WindowRows(lines, 1, 0, style) == NumberRows(lines, 1, style)
  {
    WindowContiguous(lines, 1, 0, style);
    assert WindowLines(lines, 1, 0) == lines;
  }

  /** `useLineNumbers`: the windowed, numbered text; its error result is always nil. */
  method UseLineNumbers(text: seq<char>, start: int, end: int, style: Label) returns (out: seq<char>, err: Option<seq<char>>)
    ensures out == Unlines(WindowRows(Lines(text), start, end, style))
    ensures err == None
  {
    var scanner := new LineScanner(text);
    ghost var lines := Lines(text);
    out := [];
    var i := 1;
    while true
      invariant 1 <= i <= |lines| + 1
      invariant Lines(scanner.rest) == lines[i - 1..]
      invariant out == Unlines(WindowRows(lines[..i - 1], start, end, style))
      decreases |scanner.rest|
    {
      ghost var before := scanner.rest;
      var more := scanner.Scan();
      ScanAdvance(lines, i - 1, before, more, scanner.token, scanner.rest);
      if !more {
        break;
      }
      ghost var rows := WindowRows(lines[..i - 1], start, end, style);
      WindowRowsStep(lines, i, start, end, style);
      if i >= start && (end == 0 || i <= end) {
        var line := scanner.token;
        var s := Itoa(i);
        UnlinesSnoc(rows, style(s) + " " + line);
        out := out + (style(s) + " " + line + "\n");
      } else {
        assert rows + [] == rows;
      }
      i := i + 1;
    }
    assert lines[..i - 1] == lines;
    err := None;
  }

  /** A row of `find`: the find-styled numeral when the visible line contains `q`, else the bare numeral. */
  function FindRow(findStyle: Label, i: int, line: seq<char>, q: seq<char>): seq<char>
  {
    (if Contains(Strip(line), q) then findStyle(Itoa(i)) else Itoa(i)) + " " + line
  }

  /** The rows `find` prints: every scanned line, numbered from 1, content unchanged. */
  function FindRows(lines: seq<seq<char>>, q: seq<char>, findStyle: Label): seq<seq<char>>
  {
    seq(|lines|, k requires 0 <= k < |lines| => FindRow(findStyle, k + 1, lines[k], q))
  }

  /**
   * `find`: what it prints. One row per scanned line, numbered consecutively
   * from 1, the line itself unchanged; the numeral is find-styled exactly when
   * the escape-stripped line contains `q`.
   */
  method Find(text: seq<char>, q: seq<char>, findStyle: Label) returns (printed: seq<char>)
    ensures printed == Unlines(FindRows(Lines(text), q, findStyle))
    ensures forall k :: 0 <= k < |Lines(text)| ==>
      FindRows(Lines(text), q, findStyle)[k] ==
        (if Contains(Strip(Lines(text)[k]), q) then findStyle(Itoa(k + 1)) else Itoa(k + 1)) + " " + Lines(text)[k]
  {
    var scanner := new LineScanner(text);
    ghost var lines := Lines(text);
    printed := [];
    var i := 1;
    while true
      invariant 1 <= i <= |lines| + 1
      invariant Lines(scanner.rest) == lines[i - 1..]
      invariant printed == Unlines(FindRows(lines[..i - 1], q, findStyle))
      decreases |scanner.rest|
    {
      ghost var before := scanner.rest;
      var more := scanner.Scan();
      ScanAdvance(lines, i - 1, before, more, scanner.token, scanner.rest);
      if !more {
        break;
      }
      var line := scanner.token;
      var visible := Escape(line);
      var row;
      if Contains(visible, q) {
        row := findStyle(Itoa(i)) + " " + line;
      } else {
        row := Itoa(i) + " " + line;
      }
      FindRowsStep(lines, i, q, findStyle);
      UnlinesSnoc(FindRows(lines[..i - 1], q, findStyle), row);
      printed := printed + (row + "\n");
      i := i + 1;
    }
    assert lines[..i - 1] == lines;
  }

  lemma FindRowsStep(lines: seq<seq<char>>, i: nat, q: seq<char>, findStyle: Label)
    requires 1 <= i <= |lines|
    ensures FindRows(lines[..i], q, findStyle) == FindRows(lines[..i - 1], q, findStyle) + [FindRow(findStyle, i, lines[i - 1], q)]
  {
  }

  /** The part of a line after its first space (`strings.SplitN(line, " ", 2)[1]`). */
  function AfterFirstSpace(line: seq<char>): seq<char>
    requires ' ' in line
  {
    line[IndexOf(line, ' ') + 1..]
  }

  predicate AllHaveSpace(lines: seq<seq<char>>)
  {
    forall k :: 0 <= k < |lines| ==> ' ' in lines[k]
  }

  /**
   * `removeLineNumbers` indexes the second field of every line, so a line
   * without a space (an empty line in particular) makes it panic: the text
   * `a`, an empty line, `b` already falls outside its precondition.
   */
  lemma LineWithoutSpaceRejected(x: seq<char>, y: seq<char>)
    requires '\n' !in x
    ensures !AllHaveSpace(Lines(x + "\n\n" + y))
  {
    var tail := "\n" + y;
    assert x + "\n\n" + y == x + "\n" + tail;
    LinesOfFirstLine(x, tail);
    EmptyFirstLine(y);
    assert Lines(x + "\n" + tail)[1] == [];
  }

  /** Text that starts with a newline scans to an empty first line. */
  lemma EmptyFirstLine(y: seq<char>)
    ensures Lines("\n" + y) == [[]] + Lines(y)
  {
    var empty: seq<char> := [];
    assert "\n" + y == empty + "\n" + y;
    LinesOfFirstLine(empty, y);
  }

  /** The rows `removeLineNumbers` writes: each line with its first word and space removed. */
  function StripGutters(lines: seq<seq<char>>): seq<seq<char>>
    requires AllHaveSpace(lines)
  {
    seq(|lines|, k requires 0 <= k < |lines| => AfterFirstSpace(lines[k]))
  }

  /**
   * `removeLineNumbers`. A line without a space makes the Go code index past
   * the end of `SplitN`'s result and panic, so every line must have one.
   */
  method RemoveLineNumbers(b: seq<char>) returns (result: seq<char>)
    requires AllHaveSpace(Lines(b))
    ensures result == Unlines(StripGutters(Lines(b)))
  {
    var scanner := new LineScanner(b);
    ghost var lines := Lines(b);
    ghost var done := 0;
    result := [];
    while true
      invariant 0 <= done <= |lines|
      invariant Lines(scanner.rest) == lines[done..]
      invariant result == Unlines(StripGutters(lines[..done]))
      decreases |scanner.rest|
    {
      ghost var before := scanner.rest;
      var more := scanner.Scan();
      ScanAdvance(lines, done, before, more, scanner.token, scanner.rest);
      if !more {
        break;
      }
      var line := scanner.token;
      var rest := AfterFirstSpace(line);
      StripGuttersStep(lines, done);
      UnlinesSnoc(StripGutters(lines[..done]), rest);
      result := result + (rest + "\n");
      done := done + 1;
    }
    assert lines[..done] == lines;
  }

  lemma StripGuttersStep(lines: seq<seq<char>>, k: nat)
    requires k < |lines| && AllHaveSpace(lines)
    ensures AllHaveSpace(lines[..k]) && AllHaveSpace(lines[..k + 1])
    ensures StripGutters(lines[..k + 1]) == StripGutters(lines[..k]) + [AfterFirstSpace(lines[k])]
  {
  }

  /**
   * `usePipe`, returning what it prints. A terminal gets the buffer as it
   * is; anything else gets it with its gutters removed and its escape codes
   * stripped, and then no ESC rune is left.
   */
  method UsePipe(b: seq<char>, isTerminal: bool) returns (printed: seq<char>)
    requires !isTerminal ==> AllHaveSpace(Lines(b))
    ensures isTerminal ==> printed == b + "\n"
    ensures !isTerminal ==> printed == Strip(Unlines(StripGutters(Lines(b)))) + "\n"
    ensures !isTerminal ==> ESC !in printed
  {
    if isTerminal {
      printed := b + "\n";
    } else {
      var plain := RemoveLineNumbers(b);
      var visible := Escape(plain);
      printed := visible + "\n";
    }
  }

  /** The words before and after the first space of `w + " " + rest`, for a space-free `w`. */
  lemma AfterFirstWord(w: seq<char>, rest: seq<char>)
    requires ' ' !in w
    ensures ' ' in w + " " + rest
    ensures AfterFirstSpace(w + " " + rest) == rest
  {
    var s := w + " " + rest;
    assert s[|w|] == ' ';
    assert forall j :: 0 <= j < |w| ==> s[j] == w[j];
    assert IndexOf(s, ' ') == |w|;
    assert s[|w| + 1..] == rest;
  }

  /** A gutter row, rescanned, still has its first space, and behind it the line minus a final carriage return. */
  lemma GutterRowRescanned(w: seq<char>, line: seq<char>)
    requires ' ' !in w
    ensures ' ' in DropCR(w + " " + line)
    ensures AfterFirstSpace(DropCR(w + " " + line)) == DropCR(line)
  {
    if line != [] && line[|line| - 1] == '\r' {
      assert DropCR(w + " " + line) == w + " " + DropCR(line);
    } else {
      assert DropCR(w + " " + line) == w + " " + line;
    }
    AfterFirstWord(w, DropCR(line));
  }

  /**
   * Removing the gutters from what `useLineNumbers` wrote gives back the
   * windowed lines, provided the rendered numerals hold no space and no
   * newline. (A line that itself ends in a carriage return loses it when the
   * output is scanned again.)
   */
  lemma GutterRoundTrip(text: seq<char>, start: int, end: int, style: Label)
    requires forall i: int :: ' ' !in style(Itoa(i)) && '\n' !in style(Itoa(i))
    ensures AllHaveSpace(Lines(Unlines(WindowRows(Lines(text), start, end, style))))
    ensures StripGutters(Lines(Unlines(WindowRows(Lines(text), start, end, style))))
      == DropCRs(WindowLines(Lines(text), start, end))
  {
    var lines := Lines(text);
    var kept := WindowLines(lines, start, end);
    WindowContiguous(lines, start, end, style);
    StripNumberedRows(kept, WindowLo(start), style);
    LinesOfUnlines(NumberRows(kept, WindowLo(start), style));
  }

  /** Numbered rows hold no newline, and once rescanned their gutters strip back to the lines. */
  lemma StripNumberedRows(kept: seq<seq<char>>, lo: int, style: Label)
    requires forall i: int :: ' ' !in style(Itoa(i)) && '\n' !in style(Itoa(i))
    requires forall k :: 0 <= k < |kept| ==> '\n' !in kept[k]
    ensures forall k :: 0 <= k < |NumberRows(kept, lo, style)| ==> '\n' !in NumberRows(kept, lo, style)[k]
    ensures AllHaveSpace(DropCRs(NumberRows(kept, lo, style)))
    ensures StripGutters(DropCRs(NumberRows(kept, lo, style))) == DropCRs(kept)
  {
    var rows := NumberRows(kept, lo, style);
    var rescanned := DropCRs(rows);
    forall k | 0 <= k < |rows|
      ensures '\n' !in rows[k]
      ensures ' ' in rescanned[k] && AfterFirstSpace(rescanned[k]) == DropCR(kept[k])
    {
      assert rows[k] == style(Itoa(lo + k)) + " " + kept[k];
      GutterRowRescanned(style(Itoa(lo + k)), kept[k]);
    }
  }

  /**
   * Piped output of numbered text: the windowed lines with their colour codes
   * stripped, each followed by a newline, then the final newline `Println` adds.
   */
  lemma PipedNumberedOutput(text: seq<char>, start: int, end: int, style: Label)
    requires forall i: int :: ' ' !in style(Itoa(i)) && '\n' !in style(Itoa(i))
    ensures var b := Unlines(WindowRows(Lines(text), start, end, style));
      AllHaveSpace(Lines(b)) &&
      Strip(Unlines(StripGutters(Lines(b)))) + "\n" == Strip(Unlines(DropCRs(WindowLines(Lines(text), start, end)))) + "\n"
  {
    GutterRoundTrip(text, start, end, style);
  }

  /** The uncoloured style: each numeral rendered as itself. */
  const Plain: Label := n => n

  /** Rendered without colour, numerals hold no space and no newline. */
  lemma PlainNumeralsAdmitted()
    ensures forall i: int :: ' ' !in Plain(Itoa(i)) && '\n' !in Plain(Itoa(i))
  {
    forall i: int
      ensures ' ' !in Plain(Itoa(i)) && '\n' !in Plain(Itoa(i))
    {
      var s := Itoa(i);
      assert forall k :: 0 <= k < |s| ==> s[k] != ' ' && s[k] != '\n';
    }
  }

  /** Piped numbered output in the uncoloured style gives back the windowed lines. */
  lemma PlainPipedNumberedOutput(text: seq<char>, start: int, end: int)
    ensures var b := Unlines(WindowRows(Lines(text), start, end, Plain));
      AllHaveSpace(Lines(b)) &&
      Strip(Unlines(StripGutters(Lines(b)))) + "\n" == Strip(Unlines(DropCRs(WindowLines(Lines(text), start, end)))) + "\n"
  {
    PlainNumeralsAdmitted();
    PipedNumberedOutput(text, start, end, Plain);
  }

  /**
   * The pipe path removes the first word of every line whether or not a
   * gutter was ever added: an undecorated line loses its first word.
   */
  lemma PipeDropsFirstWord(w: seq<char>, rest: seq<char>)
    requires ' ' !in w && '\n' !in w + rest && '\r' !in w + rest
    ensures AllHaveSpace(Lines(w + " " + rest + "\n"))
    ensures StripGutters(Lines(w + " " + rest + "\n")) == [rest]
  {
    var line := w + " " + rest;
    assert '\n' !in line && '\r' !in line;
    LinesOfOneLine(line);
    AfterFirstWord(w, rest);
  }

  /** A single line without carriage return, with its newline, scans back to itself. */
  lemma LinesOfOneLine(line: seq<char>)
    requires '\n' !in line && '\r' !in line
    ensures Lines(line + "\n") == [line]
  {
    LinesOfUnlines([line]);
    UnlinesCons(line, []);
    assert DropCR(line) == line;
  }
}

=== FILE: scanner.dfy ===
/**
 * Line splitting as Go's `bufio.Scanner` does it with its default split
 * function `bufio.ScanLines`: tokens end at each `\n`, one trailing `\r` is
 * dropped from each token, and a trailing `\n` does not start an empty final
 * token. xcat's rendering loops all read their input this way.
 */
module LineScan {
  import opened GoStrings

  /** The token with one trailing carriage return removed, if it has one. */
  function DropCR(t: seq<char>): (r: seq<char>)
    ensures r == t || (t == r + "\r")
    ensures r != t <==> (|t| > 0 && t[|t| - 1] == '\r')
  {
    if |t| > 0 && t[|t| - 1] == '\r' then t[..|t| - 1] else t
  }

  /** The tokens `bufio.ScanLines` yields for `s`, in order. */
  function Lines(s: seq<char>): (lines: seq<seq<char>>)
    ensures forall k :: 0 <= k < |lines| ==> '\n' !in lines[k]
    decreases |s|
  {
    if s == [] then []
    else
      var n := IndexOf(s, '\n');
      if n < |s| then [DropCR(s[..n])] + Lines(s[n + 1..])
      else [DropCR(s)]
  }

  /** Every row followed by a newline: what a loop printing `row + "\n"` per row produces. */
  function Unlines(rows: seq<seq<char>>): seq<char>
  {
    if rows == [] then []
    else Unlines(rows[..|rows| - 1]) + rows[|rows| - 1] + "\n"
  }

  function DropCRs(rows: seq<seq<char>>): seq<seq<char>>
  {
    seq(|rows|, k requires 0 <= k < |rows| => DropCR(rows[k]))
  }

  lemma {:induction false} UnlinesAppend(a: seq<seq<char>>, b: seq<seq<char>>)
    ensures Unlines(a + b) == Unlines(a) + Unlines(b)
    decreases |b|
  {
    if b == [] {
      assert a + b == a;
    } else {
      var b' := b[..|b| - 1];
      assert (a + b)[..|a + b| - 1] == a + b';
      UnlinesAppend(a, b');
    }
  }

  lemma UnlinesSnoc(rows: seq<seq<char>>, x: seq<char>)
    ensures Unlines(rows + [x]) == Unlines(rows) + (x + "\n")
  {
    assert (rows + [x])[..|rows|] == rows;
  }

  lemma UnlinesCons(x: seq<char>, rows: seq<seq<char>>)
    ensures Unlines([x] + rows) == x + "\n" + Unlines(rows)
  {
    UnlinesAppend([x], rows);
    assert Unlines([x]) == Unlines([]) + x + "\n";
  }

  /** The first newline of `x + "\n" + y`, when `x` has none, is the one after `x`. */
  lemma IndexOfFirstLine(x: seq<char>, y: seq<char>)
    requires '\n' !in x
    ensures IndexOf(x + "\n" + y, '\n') == |x|
  {
    var s := x + "\n" + y;
    assert s[|x|] == '\n';
    assert forall j :: 0 <= j < |x| ==> s[j] == x[j];
  }

  /**
   * Scanning printed rows gives the rows back, except that a row ending in a
   * carriage return loses it.
   */
  lemma {:induction false} LinesOfUnlines(rows: seq<seq<char>>)
    requires forall k :: 0 <= k < |rows| ==> '\n' !in rows[k]
    ensures Lines(Unlines(rows)) == DropCRs(rows)
    decreases |rows|
  {
    if rows != [] {
      var x, rest := rows[0], rows[1..];
      assert rows == [x] + rest;
      assert forall k :: 0 <= k < |rest| ==> rest[k] == rows[k + 1];
      var tail := Unlines(rest);
      UnlinesCons(x, rest);
      assert Unlines(rows) == x + "\n" + tail;
      LinesOfFirstLine(x, tail);
      LinesOfUnlines(rest);
      DropCRsCons(x, rest);
    }
  }

  lemma DropCRsCons(x: seq<char>, rows: seq<seq<char>>)
    ensures DropCRs([x] + rows) == [DropCR(x)] + DropCRs(rows)
  {
  }

  /** Scanning a newline-free line, its newline and more text yields that line, then the tokens of the rest. */
  lemma LinesOfFirstLine(x: seq<char>, tail: seq<char>)
    requires '\n' !in x
    ensures Lines(x + "\n" + tail) == [DropCR(x)] + Lines(tail)
  {
    var s := x + "\n" + tail;
    IndexOfFirstLine(x, tail);
    assert s[..|x|] == x;
    assert s[|x| + 1..] == tail;
  }

  /**
   * A last line with no newline after it is one token, and it too loses one
   * trailing carriage return.
   */
  lemma LinesOfLastLine(x: seq<char>)
    requires x != [] && '\n' !in x
    ensures Lines(x) == [DropCR(x)]
  {
    assert IndexOf(x, '\n') == |x|;
  }

  /**
   * Printing the scanned lines of carriage-return-free text, each followed by
   * a newline, gives the text back, with a newline added when it lacked a
   * final one.
   */
  lemma {:induction false} UnlinesOfLines(s: seq<char>)
    requires '\r' !in s
    ensures Unlines(Lines(s)) == if s == [] || s[|s| - 1] == '\n' then s else s + "\n"
    decreases |s|
  {
    if s != [] {
      var n := IndexOf(s, '\n');
      if n < |s| {
        var x, rest := s[..n], s[n + 1..];
        assert '\r' !in x && '\r' !in rest;
        assert s == x + "\n" + rest;
        UnlinesOfLines(rest);
        UnlinesOfFirstLine(x, rest);
      } else {
        assert '\n' !in s;
        UnlinesCons(s, []);
      }
    }
  }

  /** The inductive step of `UnlinesOfLines`: one line, its newline, then text already known to round-trip. */
  lemma UnlinesOfFirstLine(x: seq<char>, rest: seq<char>)
    requires '\n' !in x && '\r' !in x
    requires Unlines(Lines(rest)) == if rest == [] || rest[|rest| - 1] == '\n' then rest else rest + "\n"
    ensures var s := x + "\n" + rest;
      Unlines(Lines(s)) == if s[|s| - 1] == '\n' then s else s + "\n"
  {
    var s := x + "\n" + rest;
    LinesOfFirstLine(x, rest);
    assert DropCR(x) == x;
    UnlinesCons(x, Lines(rest));
    if rest != [] {
      assert s[|s| - 1] == rest[|rest| - 1];
    }
  }

  /**
   * There is one token per newline, plus one for a last line that has no
   * newline of its own.
   */
  lemma {:induction false} LinesCount(s: seq<char>)
    ensures |Lines(s)| == Count(s, '\n') + (if s != [] && s[|s| - 1] != '\n' then 1 else 0)
    decreases |s|
  {
    if s != [] {
      var n := IndexOf(s, '\n');
      if n < |s| {
        var rest := s[n + 1..];
        assert |Lines(s)| == 1 + |Lines(rest)|;
        CountAround(s, n);
        LinesCount(rest);
        if rest != [] {
          assert s[|s| - 1] == rest[|rest| - 1];
        }
      } else {
        assert Count(s, '\n') == 0;
      }
    }
  }

  lemma CountAround(s: seq<char>, n: nat)
    requires n < |s| && s[n] == '\n' && '\n' !in s[..n]
    ensures Count(s, '\n') == 1 + Count(s[n + 1..], '\n')
  {
    var a, b := s[..n], s[n + 1..];
    assert s == (a + [s[n]]) + b;
    CountAppend(a + [s[n]], b, '\n');
    CountAppend(a, [s[n]], '\n');
    assert [s[n]][1..] == [];
  }

  /**
   * One scan step seen from a loop that has consumed the first `i` of
   * `lines`: a token means it is line `i` and the rest holds the lines after
   * it; no token means every line has been consumed.
   */
  lemma ScanAdvance(lines: seq<seq<char>>, i: nat, before: seq<char>, ok: bool, token: seq<char>, after: seq<char>)
    requires i <= |lines| && Lines(before) == lines[i..]
    requires ok == (before != [])
    requires ok ==> Lines(before) == [token] + Lines(after)
    requires !ok ==> after == []
    ensures ok ==> i < |lines| && token == lines[i] && Lines(after) == lines[i + 1..]
    ensures !ok ==> i == |lines|
  {
    if ok {
      assert lines[i..][0] == token;
      assert lines[i + 1..] == lines[i..][1..];
    } else {
      assert |Lines(before)| == 0;
    }
  }

  /**
   * A `bufio.Scanner` in line mode over a string reader: `rest` is the input
   * not yet consumed and `token` what `Text()` returns.
   */
  class LineScanner {
    var rest: seq<char>
    var token: seq<char>

    constructor (input: seq<char>)
      ensures rest == input && token == []
    {
      rest := input;
      token := [];
    }

    /** Advances to the next token; false once the input is exhausted. */
    method Scan() returns (ok: bool)
      modifies this
      ensures ok == (old(rest) != [])
      ensures ok ==> Lines(old(rest)) == [token] + Lines(rest) && |rest| < |old(rest)|
      ensures !ok ==> rest == [] && token == []
    {
      if rest == [] {
        token := [];
        return false;
      }
      var n := IndexOf(rest, '\n');
      if n < |rest| {
        token := DropCR(rest[..n]);
        rest := rest[n + 1..];
      } else {
        token := DropCR(rest);
        rest := [];
      }
      ok := true;
    }
  }
}
